=== FILE: README.md ===
# Karaoke Night game core in Dafny

This project models the deterministic core of the Karaoke Night game server. It has four parts:

- **Search query and classifier** (`QueryBuilder`). This part builds the catalog search query from a game's filter lists (artists, genres, decades, moods). It also contains the popularity classifier.
- **Board construction** (`BoardBuilder`). This is the board `generateBoard` produces:
  - the fetched tracks are sorted by ascending popularity;
  - each track becomes one tile;
  - each block of five tiles gets one difficulty tier and one point value;
  - no tile is answered yet.

  The part also covers the client view, which hides each tile's title and artist.
- **Game services** (`GameStore`). These are the services over the key-value store: create, look up, start, delete, join and score. The store is seen as two maps:
  - the board stored under each game id;
  - the player-to-score hash stored under each game's player key.

  Each call is one atomic transition. It either fails and writes nothing, or yields the new store.
- **Model-selection helpers** (`AiAgent`). This part normalises the game parameters a language model returns and keeps the registry of models selectable by name.

`Wrappers` holds `Option` and `Result`. `Text` holds the string helpers these parts rely on: `Array.prototype.join`, ASCII lower-casing, decimal printing, and `parseInt(s, 10)` on a leading digit run. `GameModel` holds the shared records.

Some behaviours of the code are easy to misread. The model follows the code in each of them:

- `generateBoard` (server/service/game.ts:23-54) does not add anyone to the roster. Of its callers, server/api/process-game-prompt.post.ts:49-50 adds the requesting player afterwards with `addGamePlayerMap`. server/api/create-game.post.ts:36 does not, so a game created there starts with an empty roster.
- Joining again resets the player's score to 0, because `hset` overwrites the entry (server/service/game.ts:126).
- The player cap is tested as `playerCount == 5`, not `>= 5` (server/service/game.ts:122).
- Starting a game does not look at its current state (server/service/game.ts:85-97).
- The games have no "ended" state, and no answer-submission operation exists in these services.
- Tiers use fixed blocks of five tiles, indexed by `Math.floor(index / 5)` (server/service/game.ts:42). Past the 25th tile the bucket lookup is out of range, so such a tile has no tier.
- Tier labels are positional. The board's tiers get harder as popularity rises, while `classifyDifficulty` (server/service/game-provider/index.ts:131-138) rates less popular tracks as harder. The least popular track (on a tie, the first of them in input order) always leads the board as "Very Easy" with 5 points. When its popularity is below 20, the classifier calls that same track "Very Hard". `BoardBuilder.PositionalTiers` states this on a concrete board.

Because `updatePlayerGameScore` uses `hincrby` (server/service/game.ts:150), scoring an unknown player id creates that entry. A game in progress can therefore hold more than five entries, and `GameStore.ScoreCanExceedCap` proves this. The store invariant `GameStore.Valid` therefore bounds only games that are still open for joining.

## Model

| member | source | states |
|---|---|---|
| QueryBuilder.QueryEmptyIff | server/service/game-provider/index.ts:11-51 | The query is empty exactly when all three hold: the artist and genre lists are absent or empty, no decade parses, and the moods join to nothing. |
| QueryBuilder.NoFiltersEmptyQuery | server/service/game-provider/index.ts:11-51 | With every list absent or empty, the query is the empty string. |
| QueryBuilder.ArtistsOnlyQuery | server/service/game-provider/index.ts:14-19 | Artists alone give `artist:"a"` terms joined by ` OR `, in input order. |
| QueryBuilder.GenresOnlyQuery | server/service/game-provider/index.ts:21-26 | Genres alone give `genre:"g"` terms joined by ` OR `, in input order. |
| QueryBuilder.DecadeRange | server/service/game-provider/index.ts:32-37 | One decade yields at most one range, and that range is never the empty string, so the empty results that `.filter(Boolean)` removes never reach the list. |
| QueryBuilder.DecadeHead | server/service/game-provider/index.ts:31-39 | A decade whose leading digits `parseInt` reads as n, at the head of any list, contributes `year:n-(n+9)`. Its range comes before the ranges of the decades that follow it, whatever those are. |
| QueryBuilder.DecadeRangesAppend | server/service/game-provider/index.ts:31-39 | Decades are mapped one by one: the ranges of two lists placed end to end are the ranges of the first list followed by those of the second. |
| QueryBuilder.DecadeAt | server/service/game-provider/index.ts:31-39 | A decade that parses as n contributes `year:n-(n+9)` in its own place, whatever decades stand before and after it. |
| QueryBuilder.DecadeParses | server/service/game-provider/index.ts:31-36 | As a consequence, a one-decade list written as a number followed by non-digit text (such as `1990s`) gives the range of that number. |
| QueryBuilder.LeadingZeroDecade | server/service/game-provider/index.ts:33-35 | `"00s"` reads as 0 and gives `year:0-9`. |
| QueryBuilder.DecadeDropped | server/service/game-provider/index.ts:33-39 | A decade that does not start with a digit (`parseInt` gives NaN) contributes nothing. |
| QueryBuilder.Decade1980s | server/service/game-provider/index.ts:28-41 | `"1980s"` becomes `year:1980-1989`. |
| QueryBuilder.DecadeRanges | server/service/game-provider/index.ts:31-39 | There are no more ranges than decades, and none of them is empty. |
| QueryBuilder.UnparsedDecadesVanish | server/service/game-provider/index.ts:28-50 | When no decade parses, the query equals the query built without decades: the empty clause is filtered out and no doubled space appears. |
| QueryBuilder.QueryClauseOrder | server/service/game-provider/index.ts:11-51 | When every list contributes, the clauses appear in the order artists, genres, decades, moods, separated by single spaces. |
| QueryBuilder.QueryExample | server/service/game-provider/index.ts:11-51 | Artists queen and abba, decades `1980s` and `late`, and mood happy give `artist:"queen" OR artist:"abba" year:1980-1989 happy`. |
| QueryBuilder.Terms | server/service/game-provider/index.ts:17 | Each value becomes `field:"value"`, with length and order kept. |
| QueryBuilder.NonEmpty | server/service/game-provider/index.ts:50 | Filtering keeps exactly the non-empty clauses. No empty string remains, every non-empty clause survives, nothing else appears, and the result is no longer than the input. |
| QueryBuilder.Query | server/service/game-provider/index.ts:11-51 | The query is empty exactly when every clause is empty. |
| QueryBuilder.NonEmptyEmptyIff | server/service/game-provider/index.ts:50 | Filtering leaves nothing exactly when every clause is empty. |
| QueryBuilder.ClassifyDifficulty | server/service/game-provider/index.ts:131-138 | Each tier holds exactly its popularity band: at least 90, 70 to 89, 40 to 69, 20 to 39, below 20. |
| QueryBuilder.ClassifyMonotone | server/service/game-provider/index.ts:131-138 | A more popular track never lands in a harder tier. |
| Text.Join | server/service/game-provider/index.ts:50 | The joined text is as long as all parts together plus one separator fewer than there are parts. No parts give the empty string. |
| Text.Lower | server/service/ai-agent.ts:104-105 | Each character is lower-cased in place and the length is kept. |
| Text.NatToString | server/service/game-provider/index.ts:35 | A number prints as a non-empty run of decimal digits, with no leading zero unless the number is 0. |
| Text.JoinEmptyIff | server/service/game-provider/index.ts:40-50 | A join with a non-empty separator is empty exactly when there is at most one part and that part is empty. |
| Text.JoinAppend | server/service/game-provider/index.ts:50 | Joining two non-empty lists puts exactly one separator between them. |
| Text.ParsePrintedNat | server/service/game-provider/index.ts:33-35 | Parsing the leading digits of a printed number, followed by any non-digit text, gives the number back. |
| Text.ParseLeadingNat | server/service/game-provider/index.ts:33-34 | Parsing fails (NaN) exactly when the text does not start with a decimal digit. |
| Text.LowerFixpoint | server/service/ai-agent.ts:103-118 | Lower-casing yields lower-case text and leaves exactly the lower-case strings unchanged. |
| GameModel.DifficultyBucketRanks | server/service/game.ts:13-19 | The bucket lists the five tiers from easiest to hardest. |
| BoardBuilder.SortByPopularity | server/service/game.ts:32 | The result is a permutation of the tracks, sorted by ascending popularity. |
| BoardBuilder.SortIsStable | server/service/game.ts:32 | Tracks of equal popularity keep their input order, as `Array.prototype.sort` guarantees. |
| BoardBuilder.SortCharacterized | server/service/game.ts:32 | A list is the sort's result if and only if it is the stable ascending sort of the tracks. |
| BoardBuilder.InsertWithPopularity | server/service/game.ts:32 | Inserting a track adds it to the front of its own popularity class and leaves every other class unchanged. |
| BoardBuilder.CeilDiv | server/service/game.ts:43 | The result `q` is the least number with `q * b >= a`, that is `Math.ceil(a / b)`. |
| BoardBuilder.Points | server/service/game.ts:43 | The points `p` are a multiple of five with `p - 5 <= index < p`, so the tile lies in block `p / 5` of five. |
| BoardBuilder.DifficultyAt | server/service/game.ts:42 | A tier exists exactly for the first 25 indices, and its rank is `index / 5`. |
| BoardBuilder.MakeTile | server/service/game.ts:37-45 | The tile carries the track's id, title and artist, and its link when one exists. Its points are `5 * (i / 5 + 1)`, it has a tier of rank `i / 5` exactly when i is below 25, and it has no answer. |
| BoardBuilder.PointsByBlock | server/service/game.ts:43 | The tile at index i scores `5 * (i / 5 + 1)`. |
| BoardBuilder.PointsMonotone | server/service/game.ts:43 | Points never decrease along the board and are constant within a block of five. |
| BoardBuilder.TierMatchesPoints | server/service/game.ts:42-43 | Among the first 25 tiles, the tier's position is `points / 5 - 1`; beyond them a tile has no tier. |
| BoardBuilder.ArtistOf | server/service/game.ts:40 | The artist is the first artist's name, or `Unknown Artist` when there is no artist or that name is empty. |
| BoardBuilder.BuildBoard | server/service/game.ts:29-46 | Building fails with "could not fetch tracks" exactly when no track was fetched. Otherwise the board is unstarted, has the given id and has one tile per track. |
| BoardBuilder.BoardTiles | server/service/game.ts:32-45 | Tile i belongs to the i-th track of the stable ascending sort. It has that track's id, title, artist and preview link, points `5 * (i / 5 + 1)`, the tier of block `i / 5` (none past 25 tiles) and no answer. |
| BoardBuilder.PositionalTiers | server/service/game.ts:32-42 | On a board of one very popular and one very obscure track, the obscure one comes first and is labelled Very Easy, although the classifier rates it Very Hard. |
| BoardBuilder.ToView | server/service/game.ts:56-72 | The view carries the player id, game id, state, and each tile's id, tier, points, link and answer, in tile order. |
| BoardBuilder.ViewHidesExactlyTheAnswers | server/service/game.ts:56-72 | Two boards give the same view if and only if they differ at most in tile titles and artists. |
| GameStore.GenerateBoard | server/service/game.ts:23-54 | Creation fails exactly when no track was fetched. Otherwise the built board is stored under the game id and no roster changes. |
| GameStore.Roster | server/service/game.ts:120 | A game's roster is the hash stored under its player key, and an absent key reads as an empty hash. |
| GameStore.GetGame | server/service/game.ts:74-83 | A board is found exactly when one is stored under the id. |
| GameStore.StartGame | server/service/game.ts:85-97 | Starting succeeds exactly when the game exists and sets it in progress whatever its state. A missing game leaves the store unchanged. |
| GameStore.StartIdempotent | server/service/game.ts:85-97 | Starting twice is the same as starting once. |
| GameStore.DeleteGame | server/service/game.ts:99-103 | Deleting removes both the board key and the player key of the game and keeps every other entry. |
| GameStore.DeleteProperties | server/service/game.ts:99-103 | Deleting is idempotent and harmless for an absent game. Afterwards the game and its roster are gone and every other game's board and roster are unchanged. |
| GameStore.Enroll | server/service/game.ts:126 | The player is present with score 0 and every other entry is kept. |
| GameStore.AddPlayer | server/service/game.ts:105-133 | Joining gives a distinct error for each of: missing game, game already begun, exactly five players. Joining succeeds exactly when none holds, and then only the player's entry is set to 0. |
| GameStore.JoinTwice | server/service/game.ts:105-133 | Joining twice changes nothing the second time, unless the cap is hit. |
| GameStore.JoinRespectsCap | server/service/game.ts:120-126 | In a valid store, a successful join leaves at most five players. |
| GameStore.CreateThenJoin | server/service/game.ts:23-54 | Creating a game and then adding its creator gives an unstarted game with the one-entry roster creator to 0. |
| GameStore.Credit | server/service/game.ts:150 | `hincrby` adds the amount to the player's entry, an absent entry counting as 0, and keeps every other entry. |
| GameStore.CreditsCommute | server/service/game.ts:150 | Credits commute. |
| GameStore.UpdateScore | server/service/game.ts:135-152 | Scoring fails for a missing game and for a game not in progress. It succeeds exactly otherwise, and then credits only that player. |
| GameStore.UpdatesAccumulate | server/service/game.ts:135-152 | Two score updates of one player amount to one update by the sum. |
| GameStore.UpdatesCommute | server/service/game.ts:135-152 | The order in which two score updates land does not matter. |
| GameStore.StartGatesJoinAndScore | server/service/game.ts:85-152 | A started game refuses joins and accepts scores. An unstarted game refuses scores. |
| GameStore.ScoreCanExceedCap | server/service/game.ts:135-152 | On a game in progress with five players, scoring an id that is not in the roster succeeds and leaves six entries. |
| GameStore.ApplyKeepsValid | server/service/game.ts:23-152 | Every service call keeps the store invariant, given fresh ids for new games. No call except creation changes a stored game's tiles. |
| GameStore.RunKeepsValid | server/service/game.ts:23-152 | Along any sequence of calls that creates games under fresh ids, the invariant holds. In particular, no game open for joining ever has more than five players. |
| AiAgent.LowerAll | server/service/ai-agent.ts:103-118 | Each string is lower-cased, with length and order kept. |
| AiAgent.LowerIfPresent | server/service/ai-agent.ts:103-118 | A present list becomes its strings lower-cased, with length and order kept. An absent list stays absent. |
| AiAgent.NormalizeParams | server/service/ai-agent.ts:98-126 | Every present list is lower-cased element-wise and absent lists stay absent. A limit above 50 becomes 50 and any other limit is kept. |
| AiAgent.NormalizeIsProjection | server/service/ai-agent.ts:98-126 | The result is in normal form, normalisation leaves exactly the normal forms unchanged, and applying it twice equals applying it once. |
| AiAgent.NameIndex | server/service/ai-agent.ts:143 | The lookup finds the first entry with the name, and finds nothing exactly when no entry has it. |
| AiAgent.GetModel | server/service/ai-agent.ts:142-150 | Lookup fails with "not found" exactly when no entry has that name. Otherwise it returns the model of the first entry with that name. |
| AiAgent.RegisterModel | server/service/ai-agent.ts:138-140 | A new name is appended at the end. A known name keeps its position: when names are distinct, the result is the old registry with exactly that entry replaced by the new model. In both cases the name ends up holding the model, entries of other names are kept, and distinct names stay distinct. |
| AiAgent.AvailableModels | server/service/ai-agent.ts:167-169 | The names are listed in registration order. |
| AiAgent.GetAfterRegister | server/service/ai-agent.ts:138-150 | After registering, the name yields the new model and every other name yields what it yielded before. |
| AiAgent.AvailableAfterRegister | server/service/ai-agent.ts:138-140 | Registering keeps the order of known names and appends a new name at the end. |
| AiAgent.GetReturnsLastRegistered | server/service/ai-agent.ts:138-150 | After a series of registrations, a name yields the model registered under it last, or else what the starting registry held. |
| AiAgent.InitialRegistryLookup | server/service/ai-agent.ts:133-150 | The constructed service serves `gemini` and fails on every other name. |

## Left out

- Network I/O is not modelled: the catalog search with its paging, the audio-feature lookup, the video search and the language-model call. Their results enter as parameters: the track list and the id-to-link map of a creation, and the parsed parameters of `NormalizeParams`.
- `fetchTracks` and `fetchVideoLinks` are not part of this model. `GameStore.GenerateBoard` takes their results as inputs, so the query string and the song limit do not influence the board here.
- `crypto.randomUUID` becomes the `gameId` parameter. The invariant lemmas assume it names no stored game.
- Redis details are not modelled: the one-day expiry on boards and rosters, JSON serialisation and schema parsing of stored boards, and the key namespacing. The store is collapsed into two maps keyed by game id.
- Concurrency is not modelled. Each service call is one atomic transition, although the code awaits several Redis commands in a row.
- Outside this model: the HTTP handlers, the WebSocket route, the client stores and the UI.
- Popularity and the song limit are integers. The classifier's comparisons on floating-point numbers are not modelled.
- Text.Lower: lower-cases ASCII letters only, not full Unicode `toLowerCase`.
- Text.ParseLeadingNat: reads only a leading run of decimal digits. `parseInt` also skips leading whitespace and accepts a sign, and a decade with those is dropped here instead.
- Text.NatToString: prints any natural number exactly. It omits the exponent notation and precision loss of very large JavaScript numbers.
- Schema validation with Zod, which runs before normalisation, is not modelled. `NormalizeParams` starts from already-validated parameters.
- The `processGamePrompt` forwarding, logging and the `getInstance` singletons are not modelled. A model is just its name.
- A non-integer score passed to `hincrby`, which Redis rejects, is not modelled because scores are integers here.
- GameStore.Credit: integers are unbounded here. Redis `HINCRBY` fails when the sum leaves the signed 64-bit range, whereas `Credit`, and with it `GameStore.UpdateScore`, returns the exact sum.
- AiAgent.GetModel: the default argument `name = "gemini"` is not a separate member. A call without a name is `GetModel(reg, DefaultModelName)`.

=== FILE: ai_agent.dfy ===
/** The deterministic parts of the prompt-to-parameters service: the
    normalisation applied to the language model's answer, and the registry
    of models selectable by name. */
module AiAgent {
  import opened Wrappers
  import opened Text
  import opened GameModel

  /** The cap on the number of songs. */
  const MaxLimit := 50

  /** Every string of a list lower-cased, order and length kept. */
  function LowerAll(xs: seq<string>): (r: seq<string>)
    ensures |r| == |xs|
    ensures forall i :: 0 <= i < |xs| ==> r[i] == Lower(xs[i])
  {
    seq(|xs|, i requires 0 <= i < |xs| => Lower(xs[i]))
  }

  /** `dst` is `src` with every string lower-cased: absent when `src` is,
      otherwise of the same length with element `i` the lower-cased element
      `i` of `src`. */
  predicate Lowered(src: Option<seq<string>>, dst: Option<seq<string>>)
  {
    && (dst.Some? <==> src.Some?)
    && (src.Some? ==>
          && |dst.value| == |src.value|
          && forall i :: 0 <= i < |src.value| ==> dst.value[i] == Lower(src.value[i]))
  }

  /** One `if (validated.x)` branch: a present list is lower-cased, an
      absent one stays absent. */
  function LowerIfPresent(xs: Option<seq<string>>): (r: Option<seq<string>>)
    ensures Lowered(xs, r)
  {
    match xs
    case None => None
    case Some(v) => Some(LowerAll(v))
  }

  /** `validateGameParams` after schema validation: present lists are
      lower-cased and a limit above 50 becomes 50. */
  function NormalizeParams(p: GameParams): (r: GameParams)
    ensures r.limit <= MaxLimit
    ensures p.limit <= MaxLimit ==> r.limit == p.limit
    ensures p.limit > MaxLimit ==> r.limit == MaxLimit
    ensures Lowered(p.artists, r.artists) && Lowered(p.genres, r.genres)
    ensures Lowered(p.decades, r.decades) && Lowered(p.moods, r.moods)
  {
    GameParams(
      LowerIfPresent(p.artists),
      LowerIfPresent(p.genres),
      LowerIfPresent(p.decades),
      LowerIfPresent(p.moods),
      if p.limit > MaxLimit then MaxLimit else p.limit)
  }

  predicate AllLower(xs: Option<seq<string>>)
  {
    xs.Some? ==> forall i :: 0 <= i < |xs.value| ==> IsLower(xs.value[i])
  }

  /** Parameters already in normal form: no upper-case letter in any list
      and a limit of at most 50. */
  predicate IsNormalized(p: GameParams)
  {
    AllLower(p.artists) && AllLower(p.genres) && AllLower(p.decades) && AllLower(p.moods)
    && p.limit <= MaxLimit
  }

  lemma LowerIfPresentFixpoint(xs: Option<seq<string>>)
    ensures AllLower(LowerIfPresent(xs))
    ensures LowerIfPresent(xs) == xs <==> AllLower(xs)
  {
    if xs.Some? {
      var v := xs.value;
      forall i | 0 <= i < |v| ensures IsLower(LowerAll(v)[i]) && (Lower(v[i]) == v[i] <==> IsLower(v[i])) {
        LowerFixpoint(v[i]);
      }
      if LowerIfPresent(xs) == xs {
        forall i | 0 <= i < |v| ensures IsLower(v[i]) {
          assert LowerAll(v)[i] == v[i];
        }
      }
      if AllLower(xs) {
        assert LowerAll(v) == v;
      }
    }
  }

  /** Normalisation lands in normal form and leaves exactly the normal forms
      unchanged; hence applying it twice equals applying it once. */
  lemma NormalizeIsProjection(p: GameParams)
    ensures IsNormalized(NormalizeParams(p))
    ensures NormalizeParams(p) == p <==> IsNormalized(p)
    ensures NormalizeParams(NormalizeParams(p)) == NormalizeParams(p)
  {
    LowerIfPresentFixpoint(p.artists);
    LowerIfPresentFixpoint(p.genres);
    LowerIfPresentFixpoint(p.decades);
    LowerIfPresentFixpoint(p.moods);
    var q := NormalizeParams(p);
    LowerIfPresentFixpoint(q.artists);
    LowerIfPresentFixpoint(q.genres);
    LowerIfPresentFixpoint(q.decades);
    LowerIfPresentFixpoint(q.moods);
  }

  // ---- model registry ----

  /** A registered language model, known by the name it reports. */
  datatype AiModel = AiModel(name: string)

  /** The Gemini model registered by default. */
  const Gemini := AiModel("gemini-2.5-flash")

  const DefaultModelName := "gemini"

  datatype RegistryError = ModelNotFound(name: string)

  /** The registry as an insertion-ordered list of (name, model) entries,
      as a JavaScript `Map` iterates its keys. */
  type Registry = seq<(string, AiModel)>

  predicate DistinctNames(reg: Registry)
  {
    forall i, j :: 0 <= i < j < |reg| ==> reg[i].0 != reg[j].0
  }

  /** The position of the first entry named `name`, if any. */
  function NameIndex(reg: Registry, name: string): (r: Option<nat>)
    ensures r.None? <==> forall i :: 0 <= i < |reg| ==> reg[i].0 != name
    ensures r.Some? ==> r.value < |reg| && reg[r.value].0 == name
    ensures r.Some? ==> forall j :: 0 <= j < r.value ==> reg[j].0 != name
  {
    if |reg| == 0 then None
    else if reg[0].0 == name then Some(0)
    else
      var r := NameIndex(reg[1..], name);
      assert forall i :: 1 <= i < |reg| ==> reg[i] == reg[1..][i - 1];
      if r.None? then None else Some(r.value + 1)
  }

  /** Registries listing the same names in the same order find every name
      at the same position. */
  lemma NameIndexByNames(a: Registry, b: Registry, name: string)
    requires |a| == |b|
    requires forall i :: 0 <= i < |a| ==> a[i].0 == b[i].0
    ensures NameIndex(a, name) == NameIndex(b, name)
  {
    var ia, ib := NameIndex(a, name), NameIndex(b, name);
    if ia.Some? && ib.Some? {
      assert b[ia.value].0 == name && a[ib.value].0 == name;
    }
  }

  /** Appending an entry finds it only for a name no earlier entry has. */
  lemma NameIndexAppend(a: Registry, e: (string, AiModel), name: string)
    ensures NameIndex(a + [e], name)
         == if NameIndex(a, name).Some? then NameIndex(a, name)
            else if e.0 == name then Some(|a|) else None
  {
    var ae := a + [e];
    var r, ia := NameIndex(ae, name), NameIndex(a, name);
    assert forall i :: 0 <= i < |a| ==> ae[i] == a[i];
    if ia.Some? {
      var k := ia.value;
      assert ae[k].0 == name;
      assert r.Some? && r.value <= k;
      assert r.value == k;
    } else if e.0 == name {
      assert ae[|a|].0 == name;
      assert r.Some? && r.value == |a|;
    } else {
      assert forall i :: 0 <= i < |ae| ==> ae[i].0 != name by {
        assert ae[|a|] == e;
      }
    }
  }

  /** `AIAgentService.getModel`: the model of the entry named `name`, or
      "not found" when there is none. */
  function GetModel(reg: Registry, name: string): (r: Result<AiModel, RegistryError>)
    ensures r.Err? <==> forall i :: 0 <= i < |reg| ==> reg[i].0 != name
    ensures r.Err? ==> r.error == ModelNotFound(name)
    ensures r.Ok? ==> exists i :: 0 <= i < |reg| && reg[i] == (name, r.value)
                                && forall j :: 0 <= j < i ==> reg[j].0 != name
  {
    match NameIndex(reg, name)
    case None => Err(ModelNotFound(name))
    case Some(i) => Ok(reg[i].1)
  }

  /** `Map.set`: replaces the model of a known name in place, or appends a
      new entry at the end. */
  function RegisterModel(reg: Registry, name: string, model: AiModel): (r: Registry)
    ensures DistinctNames(reg) ==> DistinctNames(r)
    ensures |r| == |reg| <==> exists i :: 0 <= i < |reg| && reg[i].0 == name
    ensures |r| == |reg| || (|r| == |reg| + 1 && r[|reg|] == (name, model))
    ensures exists i :: 0 <= i < |r| && r[i] == (name, model)
    ensures forall i :: 0 <= i < |reg| ==> r[i].0 == reg[i].0
    ensures forall i :: 0 <= i < |reg| && reg[i].0 != name ==> r[i] == reg[i]
    ensures DistinctNames(reg) ==> forall i :: 0 <= i < |reg| && reg[i].0 == name ==> r == reg[i := (name, model)]
  {
    match NameIndex(reg, name)
    case Some(i) =>
      assert reg[i := (name, model)][i] == (name, model);
      reg[i := (name, model)]
    case None =>
      assert (reg + [(name, model)])[|reg|] == (name, model);
      reg + [(name, model)]
  }

  /** `getAvailableModels`: the names in insertion order. */
  function AvailableModels(reg: Registry): (names: seq<string>)
    ensures |names| == |reg|
    ensures forall i :: 0 <= i < |reg| ==> names[i] == reg[i].0
  {
    seq(|reg|, i requires 0 <= i < |reg| => reg[i].0)
  }

  /** The service's registry after construction. */
  const InitialRegistry: Registry := [(DefaultModelName, Gemini)]

  /** After registering, the name yields the new model and every other
      name yields what it yielded before. */
  lemma GetAfterRegister(reg: Registry, name: string, model: AiModel, other: string)
    ensures GetModel(RegisterModel(reg, name, model), name) == Ok(model)
    ensures other != name ==> GetModel(RegisterModel(reg, name, model), other) == GetModel(reg, other)
  {
    var r := RegisterModel(reg, name, model);
    match NameIndex(reg, name)
    case Some(k) =>
      NameIndexByNames(r, reg, name);
      NameIndexByNames(r, reg, other);
    case None =>
      NameIndexAppend(reg, (name, model), name);
      NameIndexAppend(reg, (name, model), other);
  }

  /** Registering keeps the order of known names and appends a new name at
      the end. */
  lemma AvailableAfterRegister(reg: Registry, name: string, model: AiModel)
    ensures name in AvailableModels(reg) ==> AvailableModels(RegisterModel(reg, name, model)) == AvailableModels(reg)
    ensures name !in AvailableModels(reg) ==> AvailableModels(RegisterModel(reg, name, model)) == AvailableModels(reg) + [name]
  {
    var r := RegisterModel(reg, name, model);
    if name in AvailableModels(reg) {
      var i :| 0 <= i < |reg| && AvailableModels(reg)[i] == name;
      assert reg[i].0 == name;
    }
  }

  /** The model last registered under `name` in `regs`, if any. */
  function LastRegistered(regs: seq<(string, AiModel)>, name: string): Option<AiModel>
  {
    if |regs| == 0 then None
    else if regs[|regs| - 1].0 == name then Some(regs[|regs| - 1].1)
    else LastRegistered(regs[..|regs| - 1], name)
  }

  function RegisterAll(reg: Registry, regs: seq<(string, AiModel)>): Registry
  {
    if |regs| == 0 then reg
    else RegisterModel(RegisterAll(reg, regs[..|regs| - 1]), regs[|regs| - 1].0, regs[|regs| - 1].1)
  }

  /** After a series of registrations, a name yields the model last
      registered under it, or what the starting registry held (failing when
      it held nothing). */
  lemma {:induction false} GetReturnsLastRegistered(reg: Registry, regs: seq<(string, AiModel)>, name: string)
    ensures GetModel(RegisterAll(reg, regs), name)
         == match LastRegistered(regs, name)
            case Some(m) => Ok(m)
            case None => GetModel(reg, name)
  {
    if |regs| > 0 {
      var last := regs[|regs| - 1];
      GetAfterRegister(RegisterAll(reg, regs[..|regs| - 1]), last.0, last.1, name);
      if last.0 != name {
        GetReturnsLastRegistered(reg, regs[..|regs| - 1], name);
      }
    }
  }

  /** The constructed service serves the default name with Gemini and fails
      on any other name. */
  lemma InitialRegistryLookup(name: string)
    ensures GetModel(InitialRegistry, DefaultModelName) == Ok(Gemini)
    ensures name != DefaultModelName ==> GetModel(InitialRegistry, name) == Err(ModelNotFound(name))
  {
  }
}

=== FILE: board.dfy ===
/** Board construction: tracks sorted by ascending popularity (a stable
    sort, as `Array.prototype.sort` is), one tile per track with a positional
    difficulty tier and point value, and the client-facing projection that
    withholds each tile's answer. */
module BoardBuilder {
  import opened Wrappers
  import opened GameModel
  import QueryBuilder

  // ---- stable sort by popularity ----

  predicate SortedByPopularity(s: seq<Track>)
  {
    forall i, j :: 0 <= i < j < |s| ==> s[i].popularity <= s[j].popularity
  }

  /** The tracks of `s` with popularity `p`, in their order in `s`. */
  function WithPopularity(s: seq<Track>, p: int): (r: seq<Track>)
    ensures |r| <= |s|
  {
    if |s| == 0 then []
    else (if s[0].popularity == p then [s[0]] else []) + WithPopularity(s[1..], p)
  }

  /** `r` orders the tracks of `s` by ascending popularity and keeps tracks
      of equal popularity in their original relative order. */
  ghost predicate IsStableSortOf(r: seq<Track>, s: seq<Track>)
  {
    SortedByPopularity(r) && forall p :: WithPopularity(r, p) == WithPopularity(s, p)
  }

  /** Prepending a track no more popular than the head keeps a list sorted. */
  lemma SortedCons(t: Track, s: seq<Track>)
    requires SortedByPopularity(s) && (|s| == 0 || t.popularity <= s[0].popularity)
    ensures SortedByPopularity([t] + s)
  {
    var r := [t] + s;
    forall i, j | 0 <= i < j < |r| ensures r[i].popularity <= r[j].popularity {
      if i > 0 {
        assert r[i] == s[i - 1] && r[j] == s[j - 1];
      } else {
        assert r[j] == s[j - 1];
      }
    }
  }

  /** Places `t` before the first track at least as popular. */
  function Insert(t: Track, s: seq<Track>): (r: seq<Track>)
    ensures |r| == |s| + 1
    ensures r[0] == t || (|s| > 0 && r[0] == s[0])
  {
    if |s| == 0 || t.popularity <= s[0].popularity then [t] + s
    else [s[0]] + Insert(t, s[1..])
  }

  lemma {:induction false} InsertPermutes(t: Track, s: seq<Track>)
    ensures multiset(Insert(t, s)) == multiset(s) + multiset{t}
  {
    if |s| > 0 && t.popularity > s[0].popularity {
      InsertPermutes(t, s[1..]);
      assert s == [s[0]] + s[1..];
      assert Insert(t, s) == [s[0]] + Insert(t, s[1..]);
    }
  }

  lemma {:induction false} InsertKeepsSorted(t: Track, s: seq<Track>)
    requires SortedByPopularity(s)
    ensures SortedByPopularity(Insert(t, s))
  {
    if |s| == 0 || t.popularity <= s[0].popularity {
      SortedCons(t, s);
    } else {
      assert SortedByPopularity(s[1..]);
      InsertKeepsSorted(t, s[1..]);
      SortedCons(s[0], Insert(t, s[1..]));
    }
  }

  /** The tracks in ascending popularity order. */
  function SortByPopularity(s: seq<Track>): (r: seq<Track>)
    ensures |r| == |s|
    ensures multiset(r) == multiset(s)
    ensures SortedByPopularity(r)
  {
    if |s| == 0 then []
    else
      var rest := SortByPopularity(s[1..]);
      SortStep(s, rest);
      Insert(s[0], rest)
  }

  /** One step of the insertion sort: inserting the head into the sorted tail sorts the whole. */
  lemma SortStep(s: seq<Track>, rest: seq<Track>)
    requires |s| > 0 && multiset(rest) == multiset(s[1..]) && SortedByPopularity(rest)
    ensures multiset(Insert(s[0], rest)) == multiset(s)
    ensures SortedByPopularity(Insert(s[0], rest))
  {
    InsertPermutes(s[0], rest);
    InsertKeepsSorted(s[0], rest);
    assert s == [s[0]] + s[1..];
  }

  lemma {:induction false} WithPopularityAppend(a: seq<Track>, b: seq<Track>, p: int)
    ensures WithPopularity(a + b, p) == WithPopularity(a, p) + WithPopularity(b, p)
  {
    if |a| == 0 {
      assert a + b == b;
    } else {
      var ab := a + b;
      assert ab[0] == a[0];
      assert ab[1..] == a[1..] + b;
      WithPopularityAppend(a[1..], b, p);
      var h := if a[0].popularity == p then [a[0]] else [];
      assert WithPopularity(ab, p) == h + WithPopularity(ab[1..], p);
      assert WithPopularity(a, p) == h + WithPopularity(a[1..], p);
    }
  }

  /** Inserting `t` adds it to its own popularity class, ahead of the tracks
      already there, and leaves every other class as it was. */
  lemma {:induction false} InsertWithPopularity(t: Track, s: seq<Track>, p: int)
    ensures WithPopularity(Insert(t, s), p)
         == (if t.popularity == p then [t] else []) + WithPopularity(s, p)
  {
    if |s| == 0 || t.popularity <= s[0].popularity {
      assert Insert(t, s) == [t] + s;
      WithPopularityCons(t, s, p);
    } else {
      var rest := Insert(t, s[1..]);
      assert Insert(t, s) == [s[0]] + rest;
      InsertWithPopularity(t, s[1..], p);
      WithPopularityCons(s[0], rest, p);
      WithPopularityCons(s[0], s[1..], p);
      assert [s[0]] + s[1..] == s;
      if s[0].popularity == p {
        assert t.popularity != p;
      } else if t.popularity == p {
        assert WithPopularity(Insert(t, s), p) == [t] + WithPopularity(s[1..], p);
      }
    }
  }

  lemma WithPopularityCons(t: Track, s: seq<Track>, p: int)
    ensures WithPopularity([t] + s, p) == (if t.popularity == p then [t] else []) + WithPopularity(s, p)
  {
    assert ([t] + s)[1..] == s;
  }

  /** The sort is stable. */
  lemma {:induction false} SortIsStable(s: seq<Track>)
    ensures IsStableSortOf(SortByPopularity(s), s)
  {
    if |s| > 0 {
      SortIsStable(s[1..]);
      forall p ensures WithPopularity(SortByPopularity(s), p) == WithPopularity(s, p) {
        InsertWithPopularity(s[0], SortByPopularity(s[1..]), p);
        WithPopularityAppend([s[0]], s[1..], p);
        assert s == [s[0]] + s[1..];
      }
    }
  }

  lemma {:induction false} WithPopularityHead(s: seq<Track>)
    requires |s| > 0 && SortedByPopularity(s)
    ensures WithPopularity(s, s[0].popularity) != []
    ensures WithPopularity(s, s[0].popularity)[0] == s[0]
  {
  }

  /** A track of popularity `p` in `s` shows up in `WithPopularity(s, p)`. */
  lemma {:induction false} WithPopularityNonEmpty(s: seq<Track>, i: int)
    requires 0 <= i < |s|
    ensures WithPopularity(s, s[i].popularity) != []
  {
    if i > 0 {
      WithPopularityNonEmpty(s[1..], i - 1);
      assert s[1..][i - 1] == s[i];
    }
  }

  lemma {:induction false} WithPopularityTail(s: seq<Track>, p: int)
    requires |s| > 0
    ensures WithPopularity(s[1..], p)
         == if s[0].popularity == p then WithPopularity(s, p)[1..] else WithPopularity(s, p)
  {
  }

  /** Sortedness and stability pin the result down: any two stable sorts
      of the same tracks are equal. */
  lemma {:induction false} StableSortUnique(a: seq<Track>, b: seq<Track>)
    requires SortedByPopularity(a) && SortedByPopularity(b)
    requires forall p :: WithPopularity(a, p) == WithPopularity(b, p)
    ensures a == b
    decreases |a|
  {
    if |a| == 0 {
      if |b| > 0 {
        WithPopularityNonEmpty(b, 0);
      }
    } else if |b| == 0 {
      WithPopularityNonEmpty(a, 0);
    } else {
      var pa, pb := a[0].popularity, b[0].popularity;
      WithPopularityHead(a);
      WithPopularityHead(b);
      assert pa == pb by {
        if pa < pb {
          NoneLessPopular(b, pa);
        } else if pb < pa {
          NoneLessPopular(a, pb);
        }
      }
      assert a[0] == b[0];
      forall p ensures WithPopularity(a[1..], p) == WithPopularity(b[1..], p) {
        WithPopularityTail(a, p);
        WithPopularityTail(b, p);
      }
      StableSortUnique(a[1..], b[1..]);
      assert a == [a[0]] + a[1..] && b == [b[0]] + b[1..];
    }
  }

  /** A sorted list has no track less popular than its first one. */
  lemma {:induction false} NoneLessPopular(s: seq<Track>, p: int)
    requires |s| > 0 && SortedByPopularity(s) && p < s[0].popularity
    ensures WithPopularity(s, p) == []
    decreases |s|
  {
    if |s| > 1 {
      NoneLessPopular(s[1..], p);
    }
  }

  /** `SortByPopularity` is exactly the stable ascending sort. */
  lemma SortCharacterized(s: seq<Track>, r: seq<Track>)
    ensures r == SortByPopularity(s) <==> IsStableSortOf(r, s)
  {
    SortIsStable(s);
    if IsStableSortOf(r, s) {
      StableSortUnique(r, SortByPopularity(s));
    }
  }

  // ---- tiles ----

  /** `Math.ceil(a / b)` for a non-negative `a` and positive `b`. */
  function CeilDiv(a: nat, b: nat): (q: nat)
    requires b > 0
    ensures q * b >= a
    ensures q == 0 || (q - 1) * b < a
  {
    (a + b - 1) / b
  }

  /** Points of the tile at `index`: `5 * ceil((index + 1) / 5)`. */
  function Points(index: nat): (p: int)
    ensures p % 5 == 0
    ensures p - 5 <= index < p
  {
    5 * CeilDiv(index + 1, 5)
  }

  /** The tier of the tile at `index`: the tier of its block of five, and
      none past the fifth block. */
  function DifficultyAt(index: nat): (d: Option<Difficulty>)
    ensures d.Some? <==> index < 25
    ensures d.Some? ==> Rank(d.value) == index / 5
  {
    DifficultyBucketRanks();
    if index / 5 < |DifficultyBucket| then Some(DifficultyBucket[index / 5]) else None
  }

  /** Points equal `5 * (index / 5 + 1)`, computed with integer division. */
  lemma PointsByBlock(index: nat)
    ensures Points(index) == 5 * (index / 5 + 1)
  {
    var q := CeilDiv(index + 1, 5);
    var k := index / 5;
    assert index == 5 * k + index % 5;
    assert q * 5 >= index + 1;
    assert q == 0 || (q - 1) * 5 < index + 1;
    assert q == k + 1;
  }

  /** Points never decrease along the board and are constant within each
      block of five tiles. */
  lemma PointsMonotone(i: nat, j: nat)
    requires i <= j
    ensures Points(i) <= Points(j)
    ensures i / 5 == j / 5 ==> Points(i) == Points(j)
  {
    PointsByBlock(i);
    PointsByBlock(j);
  }

  /** Within the first 25 tiles the tier's position is `points / 5 - 1`;
      beyond them a tile has no tier. */
  lemma TierMatchesPoints(index: nat)
    ensures index < 25 ==> DifficultyAt(index).Some? && Rank(DifficultyAt(index).value) == Points(index) / 5 - 1
    ensures index >= 25 <==> DifficultyAt(index).None?
  {
    PointsByBlock(index);
    DifficultyBucketRanks();
  }

  /** The first artist's name, or `"Unknown Artist"` when there is no
      artist or the name is empty. */
  function ArtistOf(t: Track): (name: string)
    ensures name != ""
    ensures |t.artistNames| > 0 && t.artistNames[0] != "" ==> name == t.artistNames[0]
    ensures !(|t.artistNames| > 0 && t.artistNames[0] != "") ==> name == "Unknown Artist"
  {
    if |t.artistNames| > 0 && t.artistNames[0] != "" then t.artistNames[0] else "Unknown Artist"
  }

  /** The tile for the track placed at `index`. */
  function MakeTile(t: Track, index: nat, videoLinks: map<string, string>): (tile: Tile)
    ensures tile.tileId == t.id && tile.title == t.name && tile.answeredBy == None
    ensures tile.artist == ArtistOf(t)
    ensures tile.previewUrl.Some? <==> t.id in videoLinks
    ensures tile.previewUrl.Some? ==> tile.previewUrl.value == videoLinks[t.id]
    ensures tile.points == 5 * (index / 5 + 1)
    ensures tile.difficulty.Some? <==> index < 25
    ensures tile.difficulty.Some? ==> Rank(tile.difficulty.value) == index / 5
  {
    PointsByBlock(index);
    Tile(
      tileId := t.id,
      previewUrl := if t.id in videoLinks then Some(videoLinks[t.id]) else None,
      artist := ArtistOf(t),
      title := t.name,
      difficulty := DifficultyAt(index),
      points := Points(index),
      answeredBy := None)
  }

  /** The board built by `generateBoard` before it is stored: fails when no
      track was fetched, otherwise one unanswered tile per track in
      ascending popularity order. */
  function BuildBoard(gameId: string, tracks: seq<Track>, videoLinks: map<string, string>): (r: Result<Board, GameError>)
    ensures r.Err? <==> |tracks| == 0
    ensures r.Err? ==> r.error == CouldNotFetchTracks
    ensures r.Ok? ==> r.value.gameId == gameId && r.value.state == Unstarted
    ensures r.Ok? ==> |r.value.tiles| == |tracks|
  {
    if |tracks| == 0 then Err(CouldNotFetchTracks)
    else
      var sorted := SortByPopularity(tracks);
      Ok(Board(gameId, Unstarted, seq(|sorted|, i requires 0 <= i < |sorted| => MakeTile(sorted[i], i, videoLinks))))
  }

  /** What `generateBoard` promises of the tiles: they follow the stable
      ascending-popularity order of the tracks, a permutation of the
      tracks, one tile per track; each carries its track's title, artist and link,
      points `5 * (i / 5 + 1)`, the positional tier, and no answer yet. */
  lemma BoardTiles(gameId: string, tracks: seq<Track>, videoLinks: map<string, string>)
    requires |tracks| > 0
    ensures var b := BuildBoard(gameId, tracks, videoLinks).value;
      && |b.tiles| == |tracks|
      && multiset(SortByPopularity(tracks)) == multiset(tracks)
      && IsStableSortOf(SortByPopularity(tracks), tracks)
      && forall i :: 0 <= i < |b.tiles| ==>
           var t := SortByPopularity(tracks)[i];
           && b.tiles[i].tileId == t.id
           && b.tiles[i].title == t.name
           && b.tiles[i].artist == (if |t.artistNames| == 0 || t.artistNames[0] == "" then "Unknown Artist" else t.artistNames[0])
           && b.tiles[i].previewUrl == (if t.id in videoLinks then Some(videoLinks[t.id]) else None)
           && b.tiles[i].points == 5 * (i / 5 + 1)
           && b.tiles[i].difficulty == (if i < 25 then Some(DifficultyBucket[i / 5]) else None)
           && b.tiles[i].answeredBy == None
  {
    var b := BuildBoard(gameId, tracks, videoLinks).value;
    SortIsStable(tracks);
    forall i | 0 <= i < |b.tiles| ensures b.tiles[i].points == 5 * (i / 5 + 1) {
      PointsByBlock(i);
    }
  }

  /** The tier labels are positional: on a board of a very popular and a very
      obscure track, the obscure one sits first and is labelled the easiest
      tier, although its popularity classifies as the hardest. */
  lemma PositionalTiers(hit: Track, obscure: Track, videoLinks: map<string, string>)
    requires hit.popularity == 95 && obscure.popularity == 5
    ensures var b := BuildBoard("g", [hit, obscure], videoLinks).value;
      && b.tiles[0].tileId == obscure.id
      && b.tiles[0].difficulty == Some(VeryEasy)
      && b.tiles[1].tileId == hit.id
      && QueryBuilder.ClassifyDifficulty(obscure.popularity) == VeryHard
  {
    var s := SortByPopularity([hit, obscure]);
    assert [hit, obscure][1..] == [obscure];
    assert SortByPopularity([obscure]) == [obscure];
    assert s == [obscure, hit];
  }

  // ---- client view ----

  /** The tile with its secret answer blanked out. */
  function Public(t: Tile): Tile
  {
    t.(title := "", artist := "")
  }

  /** `gameBoardToGameBoardDTO`: the board as sent to `playerId`. */
  function ToView(board: Board, playerId: string): (v: BoardView)
    ensures v.playerId == playerId && v.gameId == board.gameId && v.state == board.state
    ensures |v.tiles| == |board.tiles|
    ensures forall i :: 0 <= i < |v.tiles| ==>
      var t := board.tiles[i];
      v.tiles[i] == TileView(t.tileId, t.difficulty, t.points, t.previewUrl, t.answeredBy)
  {
    BoardView(playerId, board.gameId, board.state,
      seq(|board.tiles|, i requires 0 <= i < |board.tiles| =>
        var t := board.tiles[i];
        TileView(t.tileId, t.difficulty, t.points, t.previewUrl, t.answeredBy)))
  }

  /** Two boards that agree on everything except their tiles' answers. */
  predicate SamePublicPart(a: Board, b: Board)
  {
    && a.gameId == b.gameId && a.state == b.state && |a.tiles| == |b.tiles|
    && forall i :: 0 <= i < |a.tiles| ==> Public(a.tiles[i]) == Public(b.tiles[i])
  }

  /** The view reveals exactly the public part of a board: two boards give the
      same view if and only if they differ at most in titles and artists. */
  lemma ViewHidesExactlyTheAnswers(a: Board, b: Board, playerId: string)
    ensures ToView(a, playerId) == ToView(b, playerId) <==> SamePublicPart(a, b)
  {
    var va, vb := ToView(a, playerId), ToView(b, playerId);
    if va == vb {
      forall i | 0 <= i < |a.tiles| ensures Public(a.tiles[i]) == Public(b.tiles[i]) {
        assert va.tiles[i] == vb.tiles[i];
      }
    }
    if SamePublicPart(a, b) {
      forall i | 0 <= i < |va.tiles| ensures va.tiles[i] == vb.tiles[i] {
        assert Public(a.tiles[i]) == Public(b.tiles[i]);
      }
    }
  }
}

=== FILE: model.dfy ===
/** The records shared by the game services: difficulty tiers, game status,
    catalog tracks, board tiles and their client-facing projections, and the
    parameters a game is created from. */
module GameModel {
  import opened Wrappers

  /** The five difficulty tiers, easiest first. */
  datatype Difficulty = VeryEasy | Easy | Medium | Hard | VeryHard

  /** Position of a tier in the easiest-to-hardest order. */
  function Rank(d: Difficulty): (k: nat)
    ensures k < 5
  {
    match d
    case VeryEasy => 0
    case Easy => 1
    case Medium => 2
    case Hard => 3
    case VeryHard => 4
  }

  /** The tier order used for tiles, indexed by block number. */
  const DifficultyBucket: seq<Difficulty> := [VeryEasy, Easy, Medium, Hard, VeryHard]

  lemma DifficultyBucketRanks()
    ensures |DifficultyBucket| == 5
    ensures forall k :: 0 <= k < 5 ==> Rank(DifficultyBucket[k]) == k
  {
  }

  /** A game has not started yet, or has started; nothing in the services ends it. */
  datatype GameStatus = Unstarted | InProgress

  /** A catalog track as the board builder uses it; `artistNames` lists the
      names of the track's artists in catalog order. */
  datatype Track = Track(id: string, name: string, artistNames: seq<string>, popularity: int)

  /** One board tile. `title` and `artist` are the secret answer. */
  datatype Tile = Tile(
    tileId: string,
    previewUrl: Option<string>,
    artist: string,
    title: string,
    difficulty: Option<Difficulty>,
    points: int,
    answeredBy: Option<string>)

  datatype Board = Board(gameId: string, state: GameStatus, tiles: seq<Tile>)

  /** The client-facing tile: no title, no artist. */
  datatype TileView = TileView(
    tileId: string,
    difficulty: Option<Difficulty>,
    points: int,
    previewUrl: Option<string>,
    answeredBy: Option<string>)

  datatype BoardView = BoardView(playerId: string, gameId: string, state: GameStatus, tiles: seq<TileView>)

  /** Filters a game is generated from; every list may be absent. */
  datatype GameParams = GameParams(
    artists: Option<seq<string>>,
    genres: Option<seq<string>>,
    decades: Option<seq<string>>,
    moods: Option<seq<string>>,
    limit: int)

  /** The errors the game services throw. */
  datatype GameError =
    | CouldNotFetchTracks
    | GameDoesNotExist
    | GameAlreadyBegun
    | PlayerLimitReached
    | GameNotInProgress
}

=== FILE: query.dfy ===
/** The catalog search query built from game parameters, and the
    popularity-based difficulty classifier. */
module QueryBuilder {
  import opened Wrappers
  import opened Text
  import opened GameModel

  /** `field:"value"` */
  function Quoted(field: string, value: string): string
  {
    field + ":\"" + value + "\""
  }

  /** Each value rendered as `field:"value"`, in input order. */
  function Terms(field: string, values: seq<string>): (r: seq<string>)
    ensures |r| == |values|
    ensures forall i :: 0 <= i < |values| ==> r[i] == Quoted(field, values[i])
  {
    seq(|values|, i requires 0 <= i < |values| => Quoted(field, values[i]))
  }

  /** `year:n-(n+9)` */
  function YearRange(start: nat): string
  {
    "year:" + NatToString(start) + "-" + NatToString(start + 9)
  }

  /** The year range of every decade whose leading digits parse, in input
      order; the others are dropped. */
  function DecadeRanges(decades: seq<string>): (r: seq<string>)
    ensures |r| <= |decades|
    ensures forall i :: 0 <= i < |r| ==> r[i] != ""
  {
    if |decades| == 0 then [] else DecadeRange(decades[0]) + DecadeRanges(decades[1..])
  }

  /** What one decade contributes: its year range when its leading digits
      parse, nothing otherwise. */
  function DecadeRange(decade: string): (r: seq<string>)
    ensures |r| <= 1
    ensures forall i :: 0 <= i < |r| ==> r[i] != ""
  {
    match ParseLeadingNat(decade)
    case Some(n) => [YearRange(n)]
    case None => []
  }

  /** A list that is present and not empty. */
  predicate Given(xs: Option<seq<string>>)
  {
    xs.Some? && |xs.value| > 0
  }

  function ArtistClause(artists: seq<string>): string
  {
    Join(Terms("artist", artists), " OR ")
  }

  function GenreClause(genres: seq<string>): string
  {
    Join(Terms("genre", genres), " OR ")
  }

  function DecadeClause(decades: seq<string>): string
  {
    Join(DecadeRanges(decades), " OR ")
  }

  function MoodClause(moods: seq<string>): string
  {
    Join(moods, " ")
  }

  /** One clause per given list, in the order artists, genres, decades, moods. */
  function Clauses(p: GameParams): seq<string>
  {
    (if Given(p.artists) then [ArtistClause(p.artists.value)] else [])
    + (if Given(p.genres) then [GenreClause(p.genres.value)] else [])
    + (if Given(p.decades) then [DecadeClause(p.decades.value)] else [])
    + (if Given(p.moods) then [MoodClause(p.moods.value)] else [])
  }

  predicate AllEmpty(xs: seq<string>)
  {
    forall i :: 0 <= i < |xs| ==> xs[i] == ""
  }

  lemma AllEmptyAppend(x: seq<string>, y: seq<string>)
    ensures AllEmpty(x + y) <==> AllEmpty(x) && AllEmpty(y)
  {
    if AllEmpty(x + y) {
      forall i | 0 <= i < |x| ensures x[i] == "" {
        assert x[i] == (x + y)[i];
      }
      forall i | 0 <= i < |y| ensures y[i] == "" {
        assert y[i] == (x + y)[|x| + i];
      }
    }
  }

  /** The clauses that are not empty strings, order kept. */
  function NonEmpty(xs: seq<string>): (r: seq<string>)
    ensures forall i :: 0 <= i < |r| ==> r[i] != ""
    ensures |r| <= |xs|
    ensures forall x :: x in r <==> x in xs && x != ""
  {
    if |xs| == 0 then []
    else
      assert xs == [xs[0]] + xs[1..];
      (if xs[0] == "" then [] else [xs[0]]) + NonEmpty(xs[1..])
  }

  /** `queryGenerator`: the non-empty clauses joined by single spaces. The
      query is empty exactly when every clause is. */
  function Query(p: GameParams): (q: string)
    ensures q == "" <==> AllEmpty(Clauses(p))
  {
    NonEmptyEmptyIff(Clauses(p));
    JoinEmptyIff(NonEmpty(Clauses(p)), " ");
    Join(NonEmpty(Clauses(p)), " ")
  }

  /** `classifyDifficulty`: the tier of a track's popularity. */
  function ClassifyDifficulty(popularity: int): (d: Difficulty)
    ensures d == VeryEasy <==> popularity >= 90
    ensures d == Easy <==> 70 <= popularity < 90
    ensures d == Medium <==> 40 <= popularity < 70
    ensures d == Hard <==> 20 <= popularity < 40
    ensures d == VeryHard <==> popularity < 20
  {
    if popularity >= 90 then VeryEasy
    else if popularity >= 70 then Easy
    else if popularity >= 40 then Medium
    else if popularity >= 20 then Hard
    else VeryHard
  }

  /** More popular tracks never land in a harder tier. */
  lemma ClassifyMonotone(p1: int, p2: int)
    requires p1 <= p2
    ensures Rank(ClassifyDifficulty(p2)) <= Rank(ClassifyDifficulty(p1))
  {
  }

  // ---- properties of the query ----

  lemma {:induction false} NonEmptyEmptyIff(xs: seq<string>)
    ensures NonEmpty(xs) == [] <==> forall i :: 0 <= i < |xs| ==> xs[i] == ""
  {
    if |xs| > 0 {
      NonEmptyEmptyIff(xs[1..]);
      if NonEmpty(xs) == [] {
        forall i | 0 <= i < |xs| ensures xs[i] == "" {
          if i > 0 { assert xs[i] == xs[1..][i - 1]; }
        }
      }
    }
  }

  lemma {:induction false} NonEmptyKeepsNonEmpty(xs: seq<string>)
    requires forall i :: 0 <= i < |xs| ==> xs[i] != ""
    ensures NonEmpty(xs) == xs
  {
    if |xs| > 0 {
      NonEmptyKeepsNonEmpty(xs[1..]);
    }
  }

  lemma {:induction false} NonEmptyAppend(a: seq<string>, b: seq<string>)
    ensures NonEmpty(a + b) == NonEmpty(a) + NonEmpty(b)
  {
    if |a| == 0 {
      assert a + b == b;
    } else {
      assert (a + b)[1..] == a[1..] + b;
      NonEmptyAppend(a[1..], b);
    }
  }

  /** A given artist or genre list always yields a non-empty clause. */
  lemma TermsClauseNonEmpty(field: string, values: seq<string>)
    requires |values| > 0
    ensures Join(Terms(field, values), " OR ") != ""
  {
    JoinEmptyIff(Terms(field, values), " OR ");
    assert |Terms(field, values)[0]| > 0;
  }

  /** The query is empty exactly when no list contributes text: artists and
      genres absent or empty, no decade parses, and the moods join to nothing. */
  lemma QueryEmptyIff(p: GameParams)
    ensures Query(p) == "" <==>
      && !Given(p.artists)
      && !Given(p.genres)
      && (p.decades.Some? ==> DecadeRanges(p.decades.value) == [])
      && (p.moods.Some? ==> MoodClause(p.moods.value) == "")
  {
    var a := if Given(p.artists) then [ArtistClause(p.artists.value)] else [];
    var g := if Given(p.genres) then [GenreClause(p.genres.value)] else [];
    var d := if Given(p.decades) then [DecadeClause(p.decades.value)] else [];
    var m := if Given(p.moods) then [MoodClause(p.moods.value)] else [];
    assert Clauses(p) == a + g + d + m;
    AllEmptyAppend(a + g + d, m);
    AllEmptyAppend(a + g, d);
    AllEmptyAppend(a, g);
    if Given(p.artists) { TermsClauseNonEmpty("artist", p.artists.value); }
    if Given(p.genres) { TermsClauseNonEmpty("genre", p.genres.value); }
    if Given(p.decades) {
      var rs := DecadeRanges(p.decades.value);
      JoinEmptyIff(rs, " OR ");
      assert |rs| == 1 ==> rs[0] != "";
      assert AllEmpty(d) <==> d[0] == "";
    }
    if Given(p.moods) {
      assert AllEmpty(m) <==> m[0] == "";
    } else if p.moods.Some? {
      assert MoodClause(p.moods.value) == "";
    }
    assert AllEmpty(a) <==> !Given(p.artists);
    assert AllEmpty(g) <==> !Given(p.genres);
  }

  /** With every list absent or empty the query is the empty string. */
  lemma NoFiltersEmptyQuery(p: GameParams)
    requires !Given(p.artists) && !Given(p.genres) && !Given(p.decades) && !Given(p.moods)
    ensures Query(p) == ""
  {
    QueryEmptyIff(p);
  }

  /** Artists alone: `artist:"a1" OR artist:"a2" OR …` in input order. */
  lemma ArtistsOnlyQuery(p: GameParams)
    requires Given(p.artists) && !Given(p.genres) && !Given(p.decades) && !Given(p.moods)
    ensures Query(p) == Join(Terms("artist", p.artists.value), " OR ")
  {
    TermsClauseNonEmpty("artist", p.artists.value);
    assert Clauses(p) == [ArtistClause(p.artists.value)];
  }

  /** Genres alone: `genre:"g1" OR genre:"g2" OR …` in input order. */
  lemma GenresOnlyQuery(p: GameParams)
    requires !Given(p.artists) && Given(p.genres) && !Given(p.decades) && !Given(p.moods)
    ensures Query(p) == Join(Terms("genre", p.genres.value), " OR ")
  {
    TermsClauseNonEmpty("genre", p.genres.value);
    assert Clauses(p) == [GenreClause(p.genres.value)];
  }

  /** A decade whose leading digits read `n`, at the head of any list,
      contributes `year:n-(n+9)` before the ranges of the decades after it. */
  lemma DecadeHead(d: string, n: nat, rest: seq<string>)
    requires ParseLeadingNat(d) == Some(n)
    ensures DecadeRanges([d] + rest) == [YearRange(n)] + DecadeRanges(rest)
  {
    assert ([d] + rest)[1..] == rest;
  }

  /** The decade ranges of two lists placed one after the other are the
      ranges of the first followed by those of the second. */
  lemma {:induction false} DecadeRangesAppend(a: seq<string>, b: seq<string>)
    ensures DecadeRanges(a + b) == DecadeRanges(a) + DecadeRanges(b)
  {
    if |a| > 0 {
      var h, ra, rb := DecadeRange(a[0]), DecadeRanges(a[1..]), DecadeRanges(b);
      assert (a + b)[1..] == a[1..] + b;
      assert (a + b)[0] == a[0];
      assert DecadeRanges(a + b) == h + DecadeRanges(a[1..] + b);
      DecadeRangesAppend(a[1..], b);
      assert DecadeRanges(a + b) == h + (ra + rb);
      assert h + (ra + rb) == (h + ra) + rb;
    } else {
      assert a + b == b;
    }
  }

  /** A decade that parses contributes its range in its own place, whatever
      decades stand before and after it. */
  lemma DecadeAt(pre: seq<string>, d: string, n: nat, rest: seq<string>)
    requires ParseLeadingNat(d) == Some(n)
    ensures DecadeRanges(pre + [d] + rest) == DecadeRanges(pre) + [YearRange(n)] + DecadeRanges(rest)
  {
    var tail := [d] + rest;
    assert pre + [d] + rest == pre + tail;
    DecadeRangesAppend(pre, tail);
    DecadeHead(d, n, rest);
    var p, y, r := DecadeRanges(pre), [YearRange(n)], DecadeRanges(rest);
    assert p + (y + r) == p + y + r;
  }

  /** In particular a decade written as a number followed by non-digit text
      (such as `s`) contributes the range of that number. */
  lemma DecadeParses(n: nat, suffix: string)
    requires |suffix| == 0 || !IsDigit(suffix[0])
    ensures DecadeRanges([NatToString(n) + suffix]) == [YearRange(n)]
  {
    ParsePrintedNat(n, suffix);
    DecadeHead(NatToString(n) + suffix, n, []);
    assert [NatToString(n) + suffix] == [NatToString(n) + suffix] + [];
  }

  /** A decade that does not start with a digit contributes nothing. */
  lemma DecadeDropped(d: string, rest: seq<string>)
    requires |d| == 0 || !IsDigit(d[0])
    ensures DecadeRanges([d] + rest) == DecadeRanges(rest)
  {
    assert ([d] + rest)[1..] == rest;
  }

  lemma Render1980()
    ensures NatToString(1980) == "1980"
  {
    assert NatToString(1) == "1";
    assert NatToString(19) == "19";
    assert NatToString(198) == "198";
  }

  lemma Range1980()
    ensures YearRange(1980) == "year:1980-1989"
  {
    Render1980();
    assert NatToString(1989) == NatToString(198) + ['9'];
  }

  /** `"1980s"` becomes `year:1980-1989`. */
  lemma Decade1980s()
    ensures DecadeRanges(["1980s"]) == ["year:1980-1989"]
  {
    Render1980();
    Range1980();
    assert "1980s" == NatToString(1980) + "s";
    DecadeParses(1980, "s");
  }

  /** When no decade parses, the query is the one built without decades:
      no empty clause and no doubled space appear. */
  lemma UnparsedDecadesVanish(p: GameParams)
    requires p.decades.Some? && DecadeRanges(p.decades.value) == []
    ensures Query(p) == Query(p.(decades := None))
  {
    var a := if Given(p.artists) then [ArtistClause(p.artists.value)] else [];
    var g := if Given(p.genres) then [GenreClause(p.genres.value)] else [];
    var d := if Given(p.decades) then [DecadeClause(p.decades.value)] else [];
    var m := if Given(p.moods) then [MoodClause(p.moods.value)] else [];
    assert Clauses(p) == (a + g) + d + m;
    assert Clauses(p.(decades := None)) == (a + g) + m;
    assert d == [] || d == [""];
    DropEmptyClause(a + g, d, m);
  }

  lemma DropEmptyClause(x: seq<string>, e: seq<string>, y: seq<string>)
    requires e == [] || e == [""]
    ensures NonEmpty(x + e + y) == NonEmpty(x + y)
  {
    if e == [] {
      assert x + e == x;
    } else {
      NonEmptyAppend(x + e, y);
      NonEmptyAppend(x, e);
      NonEmptyAppend(x, y);
      assert NonEmpty(e) == [] + NonEmpty(e[1..]);
      assert NonEmpty(x + e) == NonEmpty(x);
    }
  }

  /** With every list contributing, the clauses appear in the order artists,
      genres, decades, moods, separated by single spaces. */
  lemma QueryClauseOrder(p: GameParams)
    requires Given(p.artists) && Given(p.genres) && p.decades.Some?
    requires DecadeRanges(p.decades.value) != []
    requires p.moods.Some? && MoodClause(p.moods.value) != ""
    ensures Query(p) ==
      ArtistClause(p.artists.value) + " " + GenreClause(p.genres.value) + " "
      + DecadeClause(p.decades.value) + " " + MoodClause(p.moods.value)
  {
    var a, g := ArtistClause(p.artists.value), GenreClause(p.genres.value);
    var d, m := DecadeClause(p.decades.value), MoodClause(p.moods.value);
    TermsClauseNonEmpty("artist", p.artists.value);
    TermsClauseNonEmpty("genre", p.genres.value);
    JoinEmptyIff(DecadeRanges(p.decades.value), " OR ");
    assert Clauses(p) == [a, g, d, m];
    JoinFour(a, g, d, m);
  }

  lemma JoinFour(a: string, g: string, d: string, m: string)
    requires a != "" && g != "" && d != "" && m != ""
    ensures Join(NonEmpty([a, g, d, m]), " ") == a + " " + g + " " + d + " " + m
  {
    NonEmptyKeepsNonEmpty([a, g, d, m]);
    assert [a, g, d, m][1..] == [g, d, m];
    assert [g, d, m][1..] == [d, m];
    assert [d, m][1..] == [m];
    assert Join([d, m], " ") == d + " " + m;
    assert Join([g, d, m], " ") == g + " " + (d + " " + m);
  }

  // ---- a worked example ----

  lemma ExampleArtistClause()
    ensures ArtistClause(["queen", "abba"]) == "artist:\"queen\" OR artist:\"abba\""
  {
    var ts := Terms("artist", ["queen", "abba"]);
    assert ts[0] == Quoted("artist", "queen") == "artist:\"queen\"";
    assert ts[1] == Quoted("artist", "abba") == "artist:\"abba\"";
    assert ts == ["artist:\"queen\"", "artist:\"abba\""];
    assert ts[1..] == ["artist:\"abba\""];
  }

  lemma ExampleDecadeClause()
    ensures DecadeClause(["1980s", "late"]) == "year:1980-1989"
  {
    Decade1980s();
    DecadeDropped("late", []);
    assert ["1980s", "late"][1..] == ["late"];
    assert DecadeRanges(["1980s", "late"]) == ["year:1980-1989"];
  }

  const ExampleParams := GameParams(Some(["queen", "abba"]), None, Some(["1980s", "late"]), Some(["happy"]), 10)

  /** Without genres, the clause list holds the other three clauses in order. */
  lemma ClausesWithoutGenres(p: GameParams)
    requires Given(p.artists) && !Given(p.genres) && Given(p.decades) && Given(p.moods)
    ensures Clauses(p) == [ArtistClause(p.artists.value), DecadeClause(p.decades.value), MoodClause(p.moods.value)]
  {
  }

  lemma QueryOfThreeClauses(p: GameParams, a: string, d: string, m: string)
    requires a != "" && d != "" && m != ""
    requires Clauses(p) == [a, d, m]
    ensures Query(p) == a + " " + d + " " + m
  {
    NonEmptyKeepsNonEmpty([a, d, m]);
    JoinThree(a, d, m);
  }

  lemma JoinThree(a: string, d: string, m: string)
    ensures Join([a, d, m], " ") == a + " " + d + " " + m
  {
    assert [a, d, m][1..] == [d, m];
    assert [d, m][1..] == [m];
    assert Join([d, m], " ") == d + " " + m;
  }

  /** Two artists, one parsing and one unparsable decade, one mood. */
  lemma QueryExample(p: GameParams)
    requires p == ExampleParams
    ensures Query(p) == "artist:\"queen\" OR artist:\"abba\" year:1980-1989 happy"
  {
    ClausesWithoutGenres(p);
    ExampleArtistClause();
    ExampleDecadeClause();
    assert MoodClause(["happy"]) == "happy";
    ExampleQueryText(p, "artist:\"queen\" OR artist:\"abba\"", "year:1980-1989", "happy");
  }

  /** The example's three clauses joined; kept apart from the example's
      literal parameters, which the solver would otherwise unfold. */
  lemma ExampleQueryText(p: GameParams, a: string, d: string, m: string)
    requires a == "artist:\"queen\" OR artist:\"abba\"" && d == "year:1980-1989" && m == "happy"
    requires Clauses(p) == [a, d, m]
    ensures Query(p) == "artist:\"queen\" OR artist:\"abba\" year:1980-1989 happy"
  {
    QueryOfThreeClauses(p, a, d, m);
  }

  /** A leading zero is read as part of the number: `"00s"` becomes `year:0-9`. */
  lemma LeadingZeroDecade()
    ensures DecadeRanges(["00s"]) == ["year:0-9"]
  {
    assert LeadingDigits("00s") == "00" by {
      assert "00s"[1..] == "0s";
      assert "0s"[1..] == "s";
    }
    assert DigitsValue("00") == 0 by {
      assert "00"[..1] == "0";
      assert "0"[..0] == "";
    }
    assert YearRange(0) == "year:0-9";
    DecadeHead("00s", 0, []);
    assert ["00s"] == ["00s"] + [];
  }
}

=== FILE: store.dfy ===
/** The game services over the key-value store, seen as two maps: the board
    stored under each game id, and the roster (player id to score) stored
    under each game's player key. Each operation is one atomic transition
    that either fails, leaving the store as it was, or yields the new store. */
module GameStore {
  import opened Wrappers
  import opened GameModel
  import BoardBuilder

  /** The player cap checked on join. */
  const PlayerLimit := 5

  datatype Store = Store(boards: map<string, Board>, players: map<string, map<string, int>>)

  /** `hgetall` of a game's player key: empty when the key is absent. */
  function Roster(s: Store, gameId: string): (r: map<string, int>)
    ensures gameId in s.players ==> r == s.players[gameId]
    ensures gameId !in s.players ==> r == map[]
  {
    if gameId in s.players then s.players[gameId] else map[]
  }

  /** `generateBoard`: builds the board and stores it under `gameId`,
      replacing any board already there. `gameId` stands for the fresh UUID,
      `tracks` for the catalog's answer and `videoLinks` for the resolved
      preview links. */
  function GenerateBoard(s: Store, gameId: string, tracks: seq<Track>, videoLinks: map<string, string>): (r: Result<(Store, Board), GameError>)
    ensures r.Err? <==> |tracks| == 0
    ensures r.Ok? ==>
      && r.value.1 == BoardBuilder.BuildBoard(gameId, tracks, videoLinks).value
      && r.value.0.boards == s.boards[gameId := r.value.1]
      && r.value.0.players == s.players
  {
    match BoardBuilder.BuildBoard(gameId, tracks, videoLinks)
    case Err(e) => Err(e)
    case Ok(board) => Ok((s.(boards := s.boards[gameId := board]), board))
  }

  /** `getGameByGameId` */
  function GetGame(s: Store, gameId: string): (r: Option<Board>)
    ensures r.Some? <==> gameId in s.boards
    ensures r.Some? ==> r.value == s.boards[gameId]
  {
    if gameId in s.boards then Some(s.boards[gameId]) else None
  }

  /** `startGameByGameId`: false for a missing game; otherwise the game is
      set in progress whatever its state was. */
  function StartGame(s: Store, gameId: string): (r: (bool, Store))
    ensures r.0 <==> gameId in s.boards
    ensures !r.0 ==> r.1 == s
    ensures r.0 ==> r.1 == s.(boards := s.boards[gameId := s.boards[gameId].(state := InProgress)])
  {
    match GetGame(s, gameId)
    case None => (false, s)
    case Some(board) => (true, s.(boards := s.boards[gameId := board.(state := InProgress)]))
  }

  /** `deleteGameByGameId`: removes the board key and the player key. */
  function DeleteGame(s: Store, gameId: string): (r: Store)
    ensures r.boards.Keys == s.boards.Keys - {gameId}
    ensures r.players.Keys == s.players.Keys - {gameId}
    ensures forall g :: g in r.boards ==> r.boards[g] == s.boards[g]
    ensures forall g :: g in r.players ==> r.players[g] == s.players[g]
  {
    Store(s.boards - {gameId}, s.players - {gameId})
  }

  /** `hset` of a zero score: the player is present with score 0 and
      every other entry is kept. */
  function Enroll(roster: map<string, int>, playerId: string): (r: map<string, int>)
    ensures r.Keys == roster.Keys + {playerId}
    ensures r[playerId] == 0
    ensures forall q :: q in roster && q != playerId ==> r[q] == roster[q]
  {
    roster[playerId := 0]
  }

  /** `addGamePlayerMap`: joining requires an existing, unstarted game
      whose roster does not already hold five entries; the player's score is
      then set to 0, whether or not they were present. */
  function AddPlayer(s: Store, gameId: string, playerId: string): (r: Result<Store, GameError>)
    ensures gameId !in s.boards ==> r == Err(GameDoesNotExist)
    ensures gameId in s.boards && s.boards[gameId].state != Unstarted ==> r == Err(GameAlreadyBegun)
    ensures (gameId in s.boards && s.boards[gameId].state == Unstarted && |Roster(s, gameId)| == PlayerLimit)
      ==> r == Err(PlayerLimitReached)
    ensures r.Ok? <==> gameId in s.boards && s.boards[gameId].state == Unstarted && |Roster(s, gameId)| != PlayerLimit
    ensures r.Ok? ==> r.value == Store(s.boards, s.players[gameId := Enroll(Roster(s, gameId), playerId)])
  {
    match GetGame(s, gameId)
    case None => Err(GameDoesNotExist)
    case Some(board) =>
      if board.state != Unstarted then Err(GameAlreadyBegun)
      else
        var roster := Roster(s, gameId);
        if |roster| == PlayerLimit then Err(PlayerLimitReached)
        else Ok(s.(players := s.players[gameId := Enroll(roster, playerId)]))
  }

  /** `hincrby`: adds `amount` to the entry of `playerId`, an absent
      entry counting as 0. */
  function Credit(roster: map<string, int>, playerId: string, amount: int): (r: map<string, int>)
    ensures r.Keys == roster.Keys + {playerId}
    ensures r[playerId] == (if playerId in roster then roster[playerId] else 0) + amount
    ensures forall q :: q in roster && q != playerId ==> r[q] == roster[q]
  {
    roster[playerId := (if playerId in roster then roster[playerId] else 0) + amount]
  }

  /** Credits to different players commute. */
  lemma CreditsCommute(roster: map<string, int>, p: string, a: int, q: string, b: int)
    ensures Credit(Credit(roster, p, a), q, b) == Credit(Credit(roster, q, b), p, a)
  {
    var r1 := Credit(Credit(roster, p, a), q, b);
    var r2 := Credit(Credit(roster, q, b), p, a);
    assert r1.Keys == r2.Keys;
    forall k | k in r1 ensures r1[k] == r2[k] {
    }
  }

  /** `updatePlayerGameScore`: requires an existing game in progress, then
      adds `score` to the player's entry, an absent entry counting as 0
      (`hincrby`). */
  function UpdateScore(s: Store, gameId: string, playerId: string, score: int): (r: Result<Store, GameError>)
    ensures gameId !in s.boards ==> r == Err(GameDoesNotExist)
    ensures gameId in s.boards && s.boards[gameId].state != InProgress ==> r == Err(GameNotInProgress)
    ensures r.Ok? <==> gameId in s.boards && s.boards[gameId].state == InProgress
    ensures r.Ok? ==> r.value == Store(s.boards, s.players[gameId := Credit(Roster(s, gameId), playerId, score)])
  {
    match GetGame(s, gameId)
    case None => Err(GameDoesNotExist)
    case Some(board) =>
      if board.state != InProgress then Err(GameNotInProgress)
      else
        Ok(s.(players := s.players[gameId := Credit(Roster(s, gameId), playerId, score)]))
  }

  // ---- relations between calls ----

  /** Starting twice is the same as starting once. */
  lemma StartIdempotent(s: Store, gameId: string)
    ensures StartGame(StartGame(s, gameId).1, gameId) == StartGame(s, gameId)
  {
    var s1 := StartGame(s, gameId).1;
    if gameId in s.boards {
      assert s1.boards[gameId].(state := InProgress) == s1.boards[gameId];
      assert s1.boards[gameId := s1.boards[gameId]] == s1.boards;
    }
  }

  /** Deleting is idempotent, harmless for an absent game, and leaves every
      other game's board and roster untouched. */
  lemma DeleteProperties(s: Store, gameId: string, other: string)
    requires other != gameId
    ensures DeleteGame(DeleteGame(s, gameId), gameId) == DeleteGame(s, gameId)
    ensures gameId !in s.boards && gameId !in s.players ==> DeleteGame(s, gameId) == s
    ensures GetGame(DeleteGame(s, gameId), other) == GetGame(s, other)
    ensures Roster(DeleteGame(s, gameId), other) == Roster(s, other)
    ensures GetGame(DeleteGame(s, gameId), gameId) == None && Roster(DeleteGame(s, gameId), gameId) == map[]
  {
    if gameId !in s.boards && gameId !in s.players {
      assert s.boards - {gameId} == s.boards;
      assert s.players - {gameId} == s.players;
    }
  }

  /** Score updates are additive: two updates of one player amount to one
      update by the sum. */
  lemma UpdatesAccumulate(s: Store, gameId: string, playerId: string, a: int, b: int)
    requires UpdateScore(s, gameId, playerId, a).Ok?
    ensures UpdateScore(UpdateScore(s, gameId, playerId, a).value, gameId, playerId, b)
         == UpdateScore(s, gameId, playerId, a + b)
  {
    var r := Roster(s, gameId);
    var s1 := s.(players := s.players[gameId := Credit(r, playerId, a)]);
    assert Roster(s1, gameId) == Credit(r, playerId, a);
    assert Credit(Credit(r, playerId, a), playerId, b) == Credit(r, playerId, a + b);
    assert s1.players[gameId := Credit(r, playerId, a + b)] == s.players[gameId := Credit(r, playerId, a + b)];
  }

  /** Score updates commute: the order in which two updates land does not
      matter. */
  lemma UpdatesCommute(s: Store, gameId: string, p: string, a: int, q: string, b: int)
    requires UpdateScore(s, gameId, p, a).Ok?
    ensures UpdateScore(UpdateScore(s, gameId, p, a).value, gameId, q, b)
         == UpdateScore(UpdateScore(s, gameId, q, b).value, gameId, p, a)
  {
    var r := Roster(s, gameId);
    var rp, rq := Credit(r, p, a), Credit(r, q, b);
    var sp, sq := s.(players := s.players[gameId := rp]), s.(players := s.players[gameId := rq]);
    assert Roster(sp, gameId) == rp;
    assert Roster(sq, gameId) == rq;
    CreditsCommute(r, p, a, q, b);
    var both := Credit(rp, q, b);
    assert sp.players[gameId := both] == s.players[gameId := both];
    assert sq.players[gameId := both] == s.players[gameId := both];
  }

  /** Joining twice: the second call either hits the cap or changes nothing. */
  lemma JoinTwice(s: Store, gameId: string, playerId: string)
    requires AddPlayer(s, gameId, playerId).Ok?
    ensures var s1 := AddPlayer(s, gameId, playerId).value;
      var r2 := AddPlayer(s1, gameId, playerId);
      r2 == Err(PlayerLimitReached) || r2 == Ok(s1)
  {
    var s1 := AddPlayer(s, gameId, playerId).value;
    if |Roster(s1, gameId)| != PlayerLimit {
      assert Roster(s1, gameId)[playerId := 0] == Roster(s1, gameId);
      assert s1.players[gameId := Roster(s1, gameId)] == s1.players;
    }
  }

  /** A started game cannot be joined, and a game that is not started
      cannot be scored. */
  lemma StartGatesJoinAndScore(s: Store, gameId: string, playerId: string, score: int)
    requires gameId in s.boards
    ensures AddPlayer(StartGame(s, gameId).1, gameId, playerId) == Err(GameAlreadyBegun)
    ensures UpdateScore(StartGame(s, gameId).1, gameId, playerId, score).Ok?
    ensures s.boards[gameId].state == Unstarted ==> UpdateScore(s, gameId, playerId, score) == Err(GameNotInProgress)
  {
  }

  /** Creating a game and then adding its creator gives a one-player roster
      with score 0, on an unstarted board. */
  lemma CreateThenJoin(s: Store, gameId: string, tracks: seq<Track>, videoLinks: map<string, string>, creator: string)
    requires |tracks| > 0
    requires gameId !in s.players
    ensures var created := GenerateBoard(s, gameId, tracks, videoLinks).value.0;
      var joined := AddPlayer(created, gameId, creator);
      && joined.Ok?
      && joined.value.boards[gameId].state == Unstarted
      && Roster(joined.value, gameId) == map[creator := 0]
  {
  }

  // ---- the store invariant ----

  /** Every roster belongs to a stored game, every stored game has tiles and
      none of them answered (nothing in these services answers a tile), and
      a game still open for joining has at most five players. */
  predicate Valid(s: Store)
  {
    && (forall g :: g in s.players ==> g in s.boards)
    && (forall g :: g in s.boards ==> |s.boards[g].tiles| > 0)
    && (forall g, i :: g in s.boards && 0 <= i < |s.boards[g].tiles| ==> s.boards[g].tiles[i].answeredBy.None?)
    && (forall g :: g in s.boards && s.boards[g].state == Unstarted ==> |Roster(s, g)| <= PlayerLimit)
  }

  /** A service call, with the generated game id and the fetched tracks and
      links of a creation as its inputs. */
  datatype Op =
    | Create(gameId: string, tracks: seq<Track>, videoLinks: map<string, string>)
    | Join(gameId: string, playerId: string)
    | Start(gameId: string)
    | Score(gameId: string, playerId: string, score: int)
    | Delete(gameId: string)

  /** The store after one call; a failing call writes nothing. */
  function Apply(s: Store, op: Op): Store
  {
    match op
    case Create(g, tracks, links) =>
      (match GenerateBoard(s, g, tracks, links) case Ok(v) => v.0 case Err(_) => s)
    case Join(g, p) => (match AddPlayer(s, g, p) case Ok(s') => s' case Err(_) => s)
    case Start(g) => StartGame(s, g).1
    case Score(g, p, n) => (match UpdateScore(s, g, p, n) case Ok(s') => s' case Err(_) => s)
    case Delete(g) => DeleteGame(s, g)
  }

  /** A creation uses a game id that names no stored game, as a fresh
      random UUID does. */
  predicate FreshId(s: Store, op: Op)
  {
    op.Create? ==> op.gameId !in s.boards
  }

  function Run(s: Store, ops: seq<Op>): Store
    decreases |ops|
  {
    if |ops| == 0 then s else Run(Apply(s, ops[0]), ops[1..])
  }

  predicate FreshIds(s: Store, ops: seq<Op>)
    decreases |ops|
  {
    |ops| == 0 || (FreshId(s, ops[0]) && FreshIds(Apply(s, ops[0]), ops[1..]))
  }

  /** A joined roster never exceeds five players. */
  lemma JoinRespectsCap(s: Store, gameId: string, playerId: string)
    requires Valid(s)
    requires AddPlayer(s, gameId, playerId).Ok?
    ensures |Roster(AddPlayer(s, gameId, playerId).value, gameId)| <= PlayerLimit
  {
    var r := Roster(s, gameId);
    assert |r| < PlayerLimit;
    assert r[playerId := 0].Keys == r.Keys + {playerId};
    assert |r.Keys + {playerId}| <= |r.Keys| + 1;
  }

  lemma CreateKeepsValid(s: Store, g: string, tracks: seq<Track>, links: map<string, string>)
    requires Valid(s) && g !in s.boards
    ensures Valid(Apply(s, Create(g, tracks, links)))
  {
    if |tracks| > 0 {
      var s' := Apply(s, Create(g, tracks, links));
      BoardBuilder.BoardTiles(g, tracks, links);
      assert s'.players == s.players;
      assert Roster(s', g) == map[];
      forall h | h in s'.boards && s'.boards[h].state == Unstarted ensures |Roster(s', h)| <= PlayerLimit {
        if h != g { assert Roster(s', h) == Roster(s, h); }
      }
    }
  }

  lemma JoinKeepsValid(s: Store, g: string, p: string)
    requires Valid(s)
    ensures Valid(Apply(s, Join(g, p)))
  {
    if AddPlayer(s, g, p).Ok? {
      var s' := Apply(s, Join(g, p));
      JoinRespectsCap(s, g, p);
      forall h | h in s'.boards && s'.boards[h].state == Unstarted ensures |Roster(s', h)| <= PlayerLimit {
        if h != g { assert Roster(s', h) == Roster(s, h); }
      }
    }
  }

  lemma ScoreKeepsValid(s: Store, g: string, p: string, n: int)
    requires Valid(s)
    ensures Valid(Apply(s, Score(g, p, n)))
  {
    if UpdateScore(s, g, p, n).Ok? {
      var s' := Apply(s, Score(g, p, n));
      forall h | h in s'.boards && s'.boards[h].state == Unstarted ensures |Roster(s', h)| <= PlayerLimit {
        assert h != g;
        assert Roster(s', h) == Roster(s, h);
      }
    }
  }

  lemma DeleteKeepsValid(s: Store, g: string)
    requires Valid(s)
    ensures Valid(Apply(s, Delete(g)))
  {
    var s' := Apply(s, Delete(g));
    forall h | h in s'.boards && s'.boards[h].state == Unstarted ensures |Roster(s', h)| <= PlayerLimit {
      assert Roster(s', h) == Roster(s, h);
    }
  }

  /** Scoring credits any id, member or not: on a game in progress with five
      players, scoring a sixth id succeeds and leaves six entries. So the
      five-player cap cannot hold for started games. */
  lemma ScoreCanExceedCap(s: Store, gameId: string, stranger: string, score: int)
    requires gameId in s.boards && s.boards[gameId].state == InProgress
    requires |Roster(s, gameId)| == PlayerLimit && stranger !in Roster(s, gameId)
    ensures UpdateScore(s, gameId, stranger, score).Ok?
    ensures |Roster(UpdateScore(s, gameId, stranger, score).value, gameId)| == PlayerLimit + 1
  {
    var r := Roster(s, gameId);
    var s' := UpdateScore(s, gameId, stranger, score).value;
    assert Roster(s', gameId) == Credit(r, stranger, score);
    assert Credit(r, stranger, score).Keys == r.Keys + {stranger};
  }

  /** Every call keeps the invariant, and no call but a creation changes a
      stored game's tiles. */
  lemma ApplyKeepsValid(s: Store, op: Op)
    requires Valid(s) && FreshId(s, op)
    ensures Valid(Apply(s, op))
    ensures forall g :: g in s.boards && g in Apply(s, op).boards && !op.Create? ==>
      Apply(s, op).boards[g].tiles == s.boards[g].tiles
  {
    match op
    case Create(g, tracks, links) => CreateKeepsValid(s, g, tracks, links);
    case Join(g, p) => JoinKeepsValid(s, g, p);
    case Start(g) =>
    case Score(g, p, n) => ScoreKeepsValid(s, g, p, n);
    case Delete(g) => DeleteKeepsValid(s, g);
  }

  /** Along any sequence of calls that creates games under fresh ids, the
      invariant holds throughout: in particular no game open for joining
      ever has more than five players. */
  lemma {:induction false} RunKeepsValid(s: Store, ops: seq<Op>)
    requires Valid(s) && FreshIds(s, ops)
    ensures Valid(Run(s, ops))
    ensures forall g :: g in Run(s, ops).boards && Run(s, ops).boards[g].state == Unstarted ==>
      |Roster(Run(s, ops), g)| <= PlayerLimit
    decreases |ops|
  {
    if |ops| > 0 {
      ApplyKeepsValid(s, ops[0]);
      RunKeepsValid(Apply(s, ops[0]), ops[1..]);
    }
  }
}

=== FILE: text.dfy ===
/** String helpers the services rely on: `Array.prototype.join`, ASCII
    lower-casing, decimal printing of a number and `parseInt(s, 10)`
    restricted to a leading run of decimal digits. */
module Text {
  import opened Wrappers

  /** The summed length of the parts. */
  function TotalLength(parts: seq<string>): nat
  {
    if |parts| == 0 then 0 else |parts[0]| + TotalLength(parts[1..])
  }

  /** `parts.join(sep)`: the parts with `sep` between neighbours, one
      separator fewer than there are parts. */
  function Join(parts: seq<string>, sep: string): (r: string)
    ensures |parts| > 0 ==> |r| == TotalLength(parts) + (|parts| - 1) * |sep|
    ensures |parts| == 0 ==> r == ""
  {
    if |parts| == 0 then ""
    else if |parts| == 1 then parts[0]
    else parts[0] + sep + Join(parts[1..], sep)
  }

  /** With a non-empty separator the joined string is empty exactly when
      there is at most one part and that part is empty. */
  lemma {:induction false} JoinEmptyIff(parts: seq<string>, sep: string)
    requires sep != ""
    ensures Join(parts, sep) == "" <==> |parts| == 0 || (|parts| == 1 && parts[0] == "")
  {
    if |parts| >= 2 {
      assert |Join(parts, sep)| >= |sep|;
    }
  }

  /** Joining two non-empty lists places the separator exactly once between them. */
  lemma {:induction false} JoinAppend(a: seq<string>, b: seq<string>, sep: string)
    requires |a| > 0 && |b| > 0
    ensures Join(a + b, sep) == Join(a, sep) + sep + Join(b, sep)
  {
    if |a| == 1 {
      assert (a + b)[1..] == b;
    } else {
      assert (a + b)[1..] == a[1..] + b;
      JoinAppend(a[1..], b, sep);
    }
  }

  predicate IsUpper(c: char)
  {
    'A' <= c <= 'Z'
  }

  /** `toLowerCase` restricted to ASCII letters. */
  function LowerChar(c: char): (r: char)
    ensures !IsUpper(r)
    ensures IsUpper(c) ==> r as int == c as int + 32
    ensures !IsUpper(c) ==> r == c
  {
    if IsUpper(c) then (c as int + 32) as char else c
  }

  /** `s.toLowerCase()`, ASCII letters only. */
  function Lower(s: string): (r: string)
    ensures |r| == |s|
    ensures forall i :: 0 <= i < |s| ==> r[i] == LowerChar(s[i])
  {
    seq(|s|, i requires 0 <= i < |s| => LowerChar(s[i]))
  }

  predicate IsLower(s: string)
  {
    forall i :: 0 <= i < |s| ==> !IsUpper(s[i])
  }

  /** Lower-casing reaches a fixpoint in one step, and the strings it leaves
      unchanged are exactly those with no upper-case letter. */
  lemma LowerFixpoint(s: string)
    ensures IsLower(Lower(s))
    ensures Lower(s) == s <==> IsLower(s)
  {
    if Lower(s) == s {
      forall i | 0 <= i < |s| ensures !IsUpper(s[i]) {
        assert Lower(s)[i] == s[i];
      }
    }
  }

  predicate IsDigit(c: char)
  {
    '0' <= c <= '9'
  }

  predicate AllDigits(s: string)
  {
    forall i :: 0 <= i < |s| ==> IsDigit(s[i])
  }

  function DigitChar(d: nat): (c: char)
    requires d < 10
    ensures IsDigit(c)
  {
    ('0' as int + d) as char
  }

  function DigitValue(c: char): (d: nat)
    requires IsDigit(c)
    ensures d < 10
  {
    c as int - '0' as int
  }

  /** Decimal rendering of a natural number, as a template literal prints it. */
  function NatToString(n: nat): (s: string)
    ensures |s| > 0 && AllDigits(s)
    ensures n > 0 ==> s[0] != '0'
  {
    if n < 10 then [DigitChar(n)] else NatToString(n / 10) + [DigitChar(n % 10)]
  }

  /** The value of a string of decimal digits, most significant first. */
  function DigitsValue(s: string): nat
    requires AllDigits(s)
  {
    if |s| == 0 then 0 else DigitsValue(s[..|s| - 1]) * 10 + DigitValue(s[|s| - 1])
  }

  /** The longest prefix of `s` made of decimal digits. */
  function LeadingDigits(s: string): (d: string)
    ensures AllDigits(d)
    ensures |d| <= |s| && d == s[..|d|]
    ensures |d| < |s| ==> !IsDigit(s[|d|])
  {
    if |s| > 0 && IsDigit(s[0]) then [s[0]] + LeadingDigits(s[1..]) else ""
  }

  /** `parseInt(s, 10)` on the leading digit run: absent (NaN) when `s`
      does not start with a digit. */
  function ParseLeadingNat(s: string): (r: Option<nat>)
    ensures r.None? <==> (|s| == 0 || !IsDigit(s[0]))
  {
    var d := LeadingDigits(s);
    if |d| == 0 then None else Some(DigitsValue(d))
  }

  lemma {:induction false} DigitsValueOfNatToString(n: nat)
    ensures DigitsValue(NatToString(n)) == n
  {
    if n >= 10 {
      var s := NatToString(n / 10) + [DigitChar(n % 10)];
      assert s[..|s| - 1] == NatToString(n / 10);
      DigitsValueOfNatToString(n / 10);
    }
  }

  lemma {:induction false} LeadingDigitsOfDigitsThen(d: string, rest: string)
    requires AllDigits(d)
    requires |rest| == 0 || !IsDigit(rest[0])
    ensures LeadingDigits(d + rest) == d
  {
    if |d| > 0 {
      assert (d + rest)[1..] == d[1..] + rest;
      LeadingDigitsOfDigitsThen(d[1..], rest);
    } else {
      assert d + rest == rest;
    }
  }

  /** Printing then parsing a number gives it back, whatever non-digit text follows. */
  lemma ParsePrintedNat(n: nat, rest: string)
    requires |rest| == 0 || !IsDigit(rest[0])
    ensures ParseLeadingNat(NatToString(n) + rest) == Some(n)
  {
    LeadingDigitsOfDigitsThen(NatToString(n), rest);
    DigitsValueOfNatToString(n);
  }
}

=== FILE: wrappers.dfy ===
/** Optional values and success-or-error results, standing in for the
    `undefined`/`null` values and thrown errors of the service code. */
module Wrappers {

  /** A value that may be absent (`undefined` or `null` in the service code). */
  datatype Option<+T> = None | Some(value: T)

  /** The outcome of an operation that either completes or throws. */
  datatype Result<+T, +E> = Ok(value: T) | Err(error: E)
}
